=== FILE: README.md ===
# Skia D3D12 swap chain: resize and recreation state machine

This project is a Dafny model of the part of the Skia D3D12 swap-chain
library that decides what happens on a resize, a draw and a recreation. The
D3D12, DXGI and Skia calls underneath are not modelled. It covers:

- **GPU context** (`src/d3d12.rs`). A `SkiaContext` holds the adapter, device,
  command queue and Skia `DirectContext`. The optional wrapper
  (`OptionalSkiaContext`) has `release` and `recreate_if_needed`. The
  `Backend` holds that wrapper. Every operation that needs a live context goes
  through `unwrap_ref`/`unwrap_mut`. Adapter selection skips software adapters
  and takes the first adapter that can create a device.
- **Swap chain** (`src/d3d12/swap_chain.rs`). A native swap chain plus an
  array of exactly `BUFFER_COUNT` (= 2) wrapped surfaces. The array is either
  complete or absent. There is an in-place resize with a zero-size guard, and
  draw/present/get_surface use the back-buffer index the presentation engine
  reports.
- **State machine** (`SwapChainState`, `HwndSwapChain`). A state is
  `Active(swap chain)` or `Resizing { new_width, new_height }`. A failed
  in-place resize releases the context and becomes `Resizing`. The next draw
  or surface access recreates the context and the swap chain.

Each foreign call is an input to the model: a `Status` (success or HRESULT), a
flag, or a value. Examples are `ResizeBuffers`, `CreateSwapChainForHwnd`, the
`cast` to `IDXGISwapChain3`, `GetBuffer`, the Skia wrap, `EnumAdapters1`,
`GetDesc1`, `D3D12CreateDevice`, `CreateCommandQueue`,
`DirectContext::new_d3d`, `GetCurrentBackBufferIndex` and `Present`. Rust
panics are explicit: every modelled call returns `Ok(value)`, `Err(HRESULT)`
(propagated with `?`) or `Panic(reason)`. So the `unwrap`s on the context, on
the surface array and on the active state are outcomes that proofs can talk
about. They are not preconditions.

The main result is `Lifecycle.OwnedSwapChainNeverBreaksOwnership`. Take a
window swap chain that owns its backend, and drive it with any sequence of
resize, draw, get-surface, present and context-recreation calls, whatever
the GPU and window system answer. Then:

- an `Active` state always has a live context, and until a panic ends the
  run it also has a full surface array;
- no call panics on a released context (`src/d3d12.rs:194-199`), a missing
  surface array, or a state that is not `Active`.

This holds because the context is released only in the step that becomes
`Resizing`, and the state becomes `Active` again only after
`recreate_context_if_needed` succeeds. `Lifecycle.SharedReleaseBreaksOwnership`
shows that single ownership is needed: if someone else releases the context
while the swap chain is `Active`, the next non-zero resize panics inside
`cleanup`.

Files and modules: `outcomes.dfy` (`Outcomes`), `adapters.dfy` (`Adapters`),
`skia_context.dfy` (`SkiaContexts`), `buffers.dfy` (`Buffers`: the data of
`swap_chain.rs`), `backend.dfy` (`Backends`), `swap_chain.dfy` (`SwapChains`)
and `lifecycle.dfy` (`Lifecycle`).

The model follows the code in these places:

- the surface array is indexed by the reported back-buffer index without
  reducing it mod 2, so an index of 2 or more panics;
- the zero-size no-op applies only to the in-place resize, so a zero size
  overwrites a pending `Resizing` size;
- a failing `GetBuffer` or surface wrap panics (`unwrap`) and is not returned
  as an error; if that happens inside an in-place resize, the swap chain is
  left Active with its native buffers resized and no surfaces;
- running out of adapters propagates `EnumAdapters1`'s
  `DXGI_ERROR_NOT_FOUND` and has no error kind of its own.

## Model

| member | source | states |
|---|---|---|
| Adapters.SelectFrom | src/d3d12.rs:248-264 | The search never panics: a successful `D3D12CreateDevice` always hands back its device, so its `unwrap` cannot fail. A selected index is a usable adapter (described, not software, device created at 11_0), and every adapter before it was walked past. |
| Adapters.SelectFromCharacterized | src/d3d12.rs:248-264 | If every adapter in `i..k` is walked past, then searching from `i` gives the following. It returns `k` exactly when adapter `k` is usable. It reports DXGI_ERROR_NOT_FOUND when `k` is past the last adapter. It propagates adapter `k`'s `GetDesc1` error. It continues as from `k+1` when `k` is also walked past. |
| Adapters.SelectAdapterIsFirstUsable | src/d3d12.rs:245-266 | The selection returns `k` if and only if adapter `k` is usable and all earlier ones are walked past. It fails with DXGI_ERROR_NOT_FOUND when every adapter is walked past. It fails with the first `GetDesc1` error met before any usable adapter. |
| Adapters.SelectAdapter | src/d3d12.rs:245-266 | The functional form of the search from the first adapter. It never panics, and a chosen adapter is usable with every earlier adapter walked past. |
| Adapters.GetHardwareAdapterAndDevice | src/d3d12.rs:245-266 | The loop over enumeration indices returns exactly the selection above. On success, the adapter is usable and every earlier adapter is walked past. |
| SkiaContexts.NewSkiaContext | src/d3d12.rs:210-227 | A context is created exactly when adapter selection, `CreateCommandQueue` and `DirectContext::new_d3d` all succeed. It sits on the adapter the selection returns, the first usable one. A selection error is propagated unchanged. A failed `CreateCommandQueue` returns its HRESULT. A missing `DirectContext` panics, and that is the only panic. |
| SkiaContexts.NewOptionalContext | src/d3d12.rs:183-185 | Succeeds exactly when the context is created. A success is live and holds exactly the context `SkiaContext::new` built. A failure is the creation's own error or panic. |
| SkiaContexts.Release | src/d3d12.rs:200-202 | After release the context is absent. |
| SkiaContexts.RecreateIfNeeded | src/d3d12.rs:186-193 | A live context is left alone and `false` is returned. A released one is recreated exactly when creation succeeds, and it becomes the context `SkiaContext::new` built. On failure it stays released and the creation's own error or panic is returned. `Ok(true)` is returned exactly when a released context became live. |
| SkiaContexts.Unwrap | src/d3d12.rs:194-199 | Yields the context exactly when it is live. Otherwise it panics with ContextReleased. |
| SkiaContexts.ReleaseThenRecreateOnce | src/d3d12.rs:186-202 | After a release, the first successful recreation returns `true`. An immediate second one returns `false` and changes nothing. |
| Buffers.NewSwapChain | src/d3d12/swap_chain.rs:116-121 | A new swap chain holds its whole surface array and the given native swap chain. |
| Backends.NewBackend | src/d3d12.rs:39-48 | A factory error is propagated. Creation succeeds exactly when the factory and the context are created. The new backend holds the created context. A failed context creation returns that creation's own error or panic. |
| Backends.ReleaseContext | src/d3d12.rs:49-51 | After `release_context` the backend's context is absent. |
| Backends.ReleaseContextIdempotent | src/d3d12.rs:49-51 | Releasing twice is the same as releasing once. |
| Backends.RecreateContextIfNeeded | src/d3d12.rs:52-54 | A live backend is unchanged and returns `false`. A released one is recreated exactly when creation succeeds, and it then holds the context `SkiaContext::new` built. `Ok(true)` means a released context became live. A failure leaves the backend unchanged and returns the creation's own error or panic. A panic is never an ownership panic. |
| Backends.WrapBuffersFrom | src/d3d12.rs:131-159 | Building the surfaces from index `i` never returns an error. It succeeds exactly when each remaining buffer is retrieved and wrapped, the context is live and the sizes fit in i32. It then yields one surface per remaining back buffer, in index order, at the given size. |
| Backends.CreateSwapChainSurfaces | src/d3d12.rs:125-160 | Yields exactly `BUFFER_COUNT` surfaces, entry `i` wrapping back buffer `i` at (width, height). It succeeds exactly when the context is live, both sizes fit in i32 and every buffer is retrieved and wrapped. Otherwise it panics and never returns an error. With a live context the panic is never an ownership panic. |
| Backends.CreateSwapChain | src/d3d12.rs:86-124 | A released context panics with ContextReleased. With a live context, a failed `CreateSwapChainFor*` returns its HRESULT, and then a failed `cast` returns its HRESULT. Any later failure is a panic. Creation succeeds exactly when both calls succeed, the size fits in i32 and every back buffer is retrieved and wrapped. The result's native swap chain has the requested target and size, and it holds a full surface array wrapping the back buffers at that size. |
| Backends.FlushAndSubmitSurface | src/d3d12.rs:161-169 | Succeeds exactly when the context is live. Otherwise it panics with ContextReleased. |
| Backends.GetDeviceRemovedReason | src/d3d12.rs:170-172 | Panics on a released context. With a live one it returns `Ok` exactly when the device reports success, and otherwise the device's HRESULT. |
| Backends.Cleanup | src/d3d12.rs:173-175 | Succeeds exactly when the context is live. Otherwise it panics with ContextReleased. |
| SwapChains.ResizeChain | src/d3d12/swap_chain.rs:122-143 | A zero width or height returns `Ok` and changes nothing. Otherwise a released context panics in cleanup and changes nothing. The call fails exactly when `ResizeBuffers` fails, returning its HRESULT and leaving no surfaces at all. After a successful `ResizeBuffers` it succeeds exactly when both sizes fit in i32 and every back buffer is retrieved and wrapped. A panic while wrapping leaves the native buffers resized and no surfaces. On success the native buffers and a full surface array are both at the new size. |
| SwapChains.GetSurface | src/d3d12/swap_chain.rs:164-167 | Returns entry `index` exactly when the surfaces are present and `index < BUFFER_COUNT`. It panics with SurfacesMissing or BackBufferIndexOutOfRange otherwise. |
| SwapChains.DrawChain | src/d3d12/swap_chain.rs:144-158 | Draws exactly when the surfaces are present, the index is in range and the context is live. The frame is on entry `index`, and `Present`'s status is returned, not unwrapped. It never returns an error. |
| SwapChains.PresentChain | src/d3d12/swap_chain.rs:159-163 | Succeeds exactly when the surfaces are present, the index is in range, the context is live and `Present` succeeds. A failed `Present` panics. |
| SwapChains.GetActive | src/d3d12/swap_chain.rs:67-78 | Returns the swap chain exactly when the state is Active. |
| SwapChains.NeedsResize | src/d3d12/swap_chain.rs:79-87 | Returns the pending size exactly when the state is Resizing, so it is `Some` exactly when `GetActive` is `None`. |
| SwapChains.ResizeState | src/d3d12/swap_chain.rs:88-107 | From Resizing: becomes Resizing at the new size (zero included), with the backend untouched. From Active with a successful in-place resize: stays Active on the resized chain, with no release. From Active with a failed one: releases the context and becomes Resizing at exactly the requested size. A panic leaves the state Active on what the in-place resize left. The backend changes only in the release step. Never returns an error. |
| SwapChains.PendingResizeLastWriteWins | src/d3d12/swap_chain.rs:88-107 | Two resizes in a row while Resizing leave only the second size and the backend unchanged. |
| SwapChains.NewHwndSwapChain | src/d3d12/swap_chain.rs:25-30 | A new window swap chain starts Active with the given swap chain. |
| SwapChains.RecreateIfNeeded | src/d3d12/swap_chain.rs:51-59 | No-op when Active. From Resizing it succeeds exactly when the context is live or can be recreated and a swap chain at the pending size can be created. It then becomes Active, with a live context, a native swap chain for the window at the pending size and surfaces at that size. A failure is the failing step's own: the context creation's error or panic, then the HRESULT of `CreateSwapChainForHwnd` or of the `cast`. Any failure leaves the state Resizing. A live backend is never touched. The consistency invariant is preserved. |
| SwapChains.RebuildHappensOnce | src/d3d12/swap_chain.rs:51-59 | Once a pending resize is realised, another access rebuilds nothing. |
| SwapChains.ResizeHwnd | src/d3d12/swap_chain.rs:31-33 | Never returns an error. While Resizing it only overwrites the pending size. From Active: a zero size changes nothing. It becomes Resizing, with the context released, exactly when the context is live, the size is non-zero and `ResizeBuffers` fails. When `ResizeBuffers` succeeds and every buffer wraps, it stays Active on a swap chain with both the native buffers and the surfaces at the new size, with the backend unchanged. With a live context, a panic inside the in-place resize leaves the swap chain Active without surfaces. The backend changes only by the release. An Active state keeps a live context. The full invariant holds after every call that does not panic, and no panic is an ownership panic. |
| SwapChains.DrawHwnd | src/d3d12/swap_chain.rs:34-40 | Under the invariant it succeeds exactly when the swap chain is Active or the rebuild succeeds, the index is in range and `Present` succeeds. A failed rebuild returns the rebuild's own failure, leaves the state Resizing and keeps a context it recreated. An index out of range panics. A failed `Present` returns its HRESULT. The painted surface is entry `index`, which after a pending resize is back buffer `index` at the pending size. An Active state is not rebuilt. The invariant is preserved, with no ownership panic. |
| SwapChains.GetSurfaceHwnd | src/d3d12/swap_chain.rs:41-45 | Under the invariant it succeeds exactly when the swap chain is Active or the rebuild succeeds, and the index is in range. A failed rebuild returns the rebuild's own failure, leaves the state Resizing and keeps a context it recreated. Errors come only from the rebuild. An index out of range panics. The surface is entry `index`, which after a pending resize is at the pending size. The invariant is preserved, with no ownership panic. |
| SwapChains.PresentHwnd | src/d3d12/swap_chain.rs:46-50 | Does nothing while Resizing. When Active it is exactly the swap chain's present: it succeeds exactly when the surfaces are present, the index is in range, the context is live and `Present` succeeds, and a failed `Present` panics. It never returns an error. Under the invariant there is no ownership panic. |
| SwapChains.CreateHwndSwapChain | src/d3d12.rs:75-85 | Succeeds exactly when the swap chain is created. The result is Active for the window, at the requested size, with a full surface array and consistent with the backend. A failure is the swap-chain creation's own error or panic, unchanged. |
| SwapChains.CreateRawWindowHandleSwapChain | src/d3d12.rs:63-74 | A handle that is not Win32 panics with NotWin32. A Win32 handle succeeds exactly when the swap chain is created, and then yields an Active swap chain for that window at the requested size, with a full surface array wrapping the back buffers. Otherwise it returns the creation's own error or panic, unchanged. |
| Lifecycle.Start | src/d3d12.rs:63-85 | A backend and window swap chain that were created successfully start sound. The state is Active at the requested size and the context is live. |
| Lifecycle.RunKeepsSound | src/d3d12/swap_chain.rs:88-107 | Any sequence of resize, draw, get-surface, present and context-recreation calls keeps these facts. Active means a live context. Until a panic, Active also means full surfaces. No panic is an ownership panic. |
| Lifecycle.OwnedSwapChainNeverBreaksOwnership | src/d3d12.rs:194-199 | Take an owned window swap chain and any sequence of resize, draw, get-surface, present and context-recreation calls. Afterwards an Active state has a live context. Until a panic, the full invariant holds. No call has panicked on a released context, missing surfaces or a non-Active state. |
| Lifecycle.EndToEndScenario | src/d3d12/swap_chain.rs:31-59 | Steps: create at 800x600 and draw; resize to 0x0 (a no-op); resize in place to 1024x768; a failed resize (Resizing at 1024x768 with the context released); then draw. The last draw rebuilds the context and an Active 1024x768 swap chain. |
| Lifecycle.DeviceRemovedQueryPanicsWhileResizing | src/d3d12.rs:170-172 | After a failed in-place resize, the state is Resizing and `get_device_removed_reason` panics with ContextReleased. That is why the query is not one of the owner's events. |
| Lifecycle.SharedReleaseBreaksOwnership | src/d3d12/swap_chain.rs:128-131 | If the context is released by someone else while Active, the invariant is broken and the next non-zero resize panics with ContextReleased. |

## Left out

- The D3D12, DXGI and Skia calls are not modelled. Each appears only as its success/failure or returned value. Device, queue, factory and native swap-chain handles are opaque. A context is identified by its adapter index.
- The paint callback and `Canvas` drawing are left out because they are caller code. A drawn frame records only the surface the callback is given.
- The `DXGI_SWAP_CHAIN_DESC1` contents (`swap_chain_desc*`) are left out. They are constant enum values passed to the native call.
- `Backend::dwm_flush` is left out. It is a bare foreign call with no logic.
- `Backend::create_window_swap_chain` is not modelled separately. It only reads the handle through the `HasRawWindowHandle` trait and then does what `CreateRawWindowHandleSwapChain` models.
- `create_swap_chain_for_hwnd` and `create_swap_chain_for_composition` are one member, `Backends.CreateSwapChain`, with the target as a parameter. They differ only in the native call.
- The composition adapters (`src/wincomp.rs`, `src/dcomp.rs`, `src/windows_ui_composition.rs`) are left out. They repeat `recreate_if_needed`'s logic around composition objects.
- `src/swap_chain.rs` is left out: it is an older revision that is not compiled. The examples and `src/lib.rs` are left out too: they are demo and re-export glue.
- Adapters.GetHardwareAdapterAndDevice: the `u32` enumeration index is unbounded in the model, so the overflow panic after 2^32 adapters is not modelled.
- Lifecycle.RunKeepsSound: the events do not include `get_device_removed_reason` or an outside `release_context`. Both are public backend calls. On a released context the first panics, as `DeviceRemovedQueryPanicsWhileResizing` shows. The second breaks the invariant, as `SharedReleaseBreaksOwnership` shows.
- Lifecycle.OwnedSwapChainNeverBreaksOwnership: "any sequence of calls" means the five events above. It leaves out `get_device_removed_reason`, which panics while Resizing, and an outside `release_context`.
- Lifecycle.Sound: after a panic, only "Active means a live context" is promised. A panic inside an in-place resize leaves the swap chain Active with no surfaces. A panic ends the run, so nothing after it is modelled.
- Presentation is modelled as one status. The sync interval (one vertical blank) and the flags are constants of the call.
- GPU asynchrony, memory reclaimed by deferred cleanup, and COM reference counting are left out. Cleanup is modelled only by its need for a live context.

=== FILE: adapters.dfy ===
/** Adapter selection (`get_hardware_adapter_and_device`): walk the adapters in
    enumeration order, skip software adapters, and take the first one on which
    a D3D12 device at feature level 11_0 can be created. */
module Adapters {
  import opened Outcomes

  /** DXGI_ADAPTER_FLAG_SOFTWARE: set on the Microsoft Basic Render Driver. */
  const ADAPTER_FLAG_SOFTWARE: bv32 := 2

  /** What the native calls report about one enumerated adapter: the status of
      `GetDesc1`, the description's flags, and whether `D3D12CreateDevice` at
      feature level 11_0 succeeds on it. A successful call always hands back
      the device, so the `unwrap` on it never fails. */
  datatype Adapter = Adapter(describe: Status, flags: bv32, createsDevice: bool)

  predicate IsSoftware(a: Adapter) {
    a.flags & ADAPTER_FLAG_SOFTWARE != 0
  }

  /** An adapter the search stops at. */
  predicate Usable(a: Adapter) {
    a.describe.Success? && !IsSoftware(a) && a.createsDevice
  }

  /** An adapter the search walks past: described, but software or without a device. */
  predicate Passed(a: Adapter) {
    a.describe.Success? && !Usable(a)
  }

  /** Every adapter before index `k` is walked past. */
  predicate AllPassed(adapters: seq<Adapter>, k: nat)
    requires k <= |adapters|
  {
    forall j :: 0 <= j < k ==> Passed(adapters[j])
  }

  /** The search from enumeration index `i` on. `EnumAdapters1(i)` fails with
      DXGI_ERROR_NOT_FOUND once `i` reaches the number of adapters; that error,
      like a failing `GetDesc1`, is propagated. The result is the index of the
      chosen adapter (the device itself is opaque). */
  function SelectFrom(adapters: seq<Adapter>, i: nat): (r: Outcome<nat>)
    requires i <= |adapters|
    ensures !r.Panic?
    ensures r.Ok? ==> i <= r.value < |adapters| && Usable(adapters[r.value])
    ensures r.Ok? ==> forall j :: i <= j < r.value ==> Passed(adapters[j])
    decreases |adapters| - i
  {
    if i == |adapters| then Err(DXGI_ERROR_NOT_FOUND)
    else if adapters[i].describe.Failure? then Err(adapters[i].describe.code)
    else if IsSoftware(adapters[i]) then SelectFrom(adapters, i + 1)
    else if adapters[i].createsDevice then Ok(i)
    else SelectFrom(adapters, i + 1)
  }

  /** `get_hardware_adapter_and_device`: the search from the first adapter.
      It never panics, and a chosen adapter is usable with every adapter
      before it walked past. */
  function SelectAdapter(adapters: seq<Adapter>): (r: Outcome<nat>)
    ensures !r.Panic?
    ensures r.Ok? ==> r.value < |adapters| && Usable(adapters[r.value]) && AllPassed(adapters, r.value)
  {
    SelectFrom(adapters, 0)
  }

  /** The search from `i` agrees with the "first usable adapter" reading, in
      both directions, and its failures are exactly: running out of adapters,
      or the first failing description before any usable adapter. */
  lemma {:induction false} SelectFromCharacterized(adapters: seq<Adapter>, i: nat, k: nat)
    requires i <= k <= |adapters|
    requires forall j :: i <= j < k ==> Passed(adapters[j])
    ensures SelectFrom(adapters, i) == Ok(k) <==> k < |adapters| && Usable(adapters[k])
    ensures k == |adapters| ==> SelectFrom(adapters, i) == Err(DXGI_ERROR_NOT_FOUND)
    ensures k < |adapters| && adapters[k].describe.Failure? ==>
              SelectFrom(adapters, i) == Err(adapters[k].describe.code)
    ensures k < |adapters| && Passed(adapters[k]) ==> SelectFrom(adapters, i) == SelectFrom(adapters, k + 1)
    decreases k - i
  {
    if i < k {
      assert Passed(adapters[i]);
      SelectFromCharacterized(adapters, i + 1, k);
    }
  }

  /** `SelectAdapter` returns `k` exactly when adapter `k` is the first usable
      one; when every adapter is walked past it reports DXGI_ERROR_NOT_FOUND;
      a failing description before any usable adapter is propagated. */
  lemma SelectAdapterIsFirstUsable(adapters: seq<Adapter>, k: nat)
    requires k <= |adapters|
    ensures SelectAdapter(adapters) == Ok(k) <==>
              k < |adapters| && Usable(adapters[k]) && AllPassed(adapters, k)
    ensures AllPassed(adapters, |adapters|) ==> SelectAdapter(adapters) == Err(DXGI_ERROR_NOT_FOUND)
    ensures k < |adapters| && AllPassed(adapters, k) && adapters[k].describe.Failure? ==>
              SelectAdapter(adapters) == Err(adapters[k].describe.code)
  {
    if AllPassed(adapters, k) {
      SelectFromCharacterized(adapters, 0, k);
    }
    if AllPassed(adapters, |adapters|) {
      SelectFromCharacterized(adapters, 0, |adapters|);
    }
  }

  /** The imperative search, loop for loop as the source writes it. */
  method GetHardwareAdapterAndDevice(adapters: seq<Adapter>) returns (r: Outcome<nat>)
    ensures r == SelectAdapter(adapters)
    ensures r.Ok? ==> r.value < |adapters| && Usable(adapters[r.value]) && AllPassed(adapters, r.value)
  {
    var i := 0;
    while true
      invariant i <= |adapters|
      invariant AllPassed(adapters, i)
      invariant SelectFrom(adapters, i) == SelectAdapter(adapters)
      decreases |adapters| - i
    {
      if i == |adapters| {
        return Err(DXGI_ERROR_NOT_FOUND);
      }
      var adapter := adapters[i];
      if adapter.describe.Failure? {
        return Err(adapter.describe.code);
      }
      if !IsSoftware(adapter) && adapter.createsDevice {
        return Ok(i);
      }
      i := i + 1;
    }
  }
}

=== FILE: backend.dfy ===
/** `Backend`: the DXGI factory (opaque here) and the optional GPU context,
    with the operations that need a live context: swap-chain creation,
    surface wrapping, flush, device-removed query and deferred cleanup. */
module Backends {
  import opened Outcomes
  import opened SkiaContexts
  import opened Buffers

  datatype Backend = Backend(context: OptionalSkiaContext)

  /** A backend operation's new backend value and its returned result. */
  datatype BackendStep<+T> = BackendStep(backend: Backend, outcome: Outcome<T>)

  /** `Backend::new`: create the DXGI factory, then the context; either error
      propagates. A new backend always holds a live context. */
  function NewBackend(factory: Status, c: ContextCreation): (r: Outcome<Backend>)
    ensures factory.Failure? ==> r == Err(factory.code)
    ensures r.Ok? <==> factory.Success? && NewSkiaContext(c).Ok?
    ensures r.Ok? ==> r.value.context == Some(NewSkiaContext(c).value)
    ensures factory.Success? && !NewSkiaContext(c).Ok? ==> r == NewSkiaContext(c).PropagateFailure()
  {
    if factory.Failure? then Err(factory.code)
    else
      var context :- NewOptionalContext(c);
      Ok(Backend(context))
  }

  /** `Backend::release_context`: afterwards the context is released. */
  function ReleaseContext(b: Backend): (r: Backend)
    ensures r.context.None?
  {
    Backend(Release(b.context))
  }

  /** Releasing twice is the same as releasing once. */
  lemma ReleaseContextIdempotent(b: Backend)
    ensures ReleaseContext(ReleaseContext(b)) == ReleaseContext(b)
  {
  }

  /** `Backend::recreate_context_if_needed`: recreates exactly a released
      context, reporting whether it did; a live context is left alone. */
  function RecreateContextIfNeeded(b: Backend, c: ContextCreation): (r: BackendStep<bool>)
    ensures b.context.Some? ==> r == BackendStep(b, Ok(false))
    ensures b.context.None? ==> (r.outcome.Ok? <==> NewSkiaContext(c).Ok?)
    ensures r.outcome == Ok(true) <==> b.context.None? && r.backend.context.Some?
    ensures r.outcome.Ok? ==> r.backend.context.Some?
    ensures !r.outcome.Ok? ==> r.backend == b
    ensures b.context.None? && r.outcome.Ok? ==> r.backend.context == Some(NewSkiaContext(c).value)
    ensures b.context.None? && !r.outcome.Ok? ==> r.outcome == NewSkiaContext(c).PropagateFailure()
    ensures r.outcome.Panic? ==> !BreaksOwnership(r.outcome.reason)
  {
    var rc := RecreateIfNeeded(b.context, c);
    BackendStep(Backend(rc.context), rc.outcome)
  }

  /** One step of `create_swap_chain_surfaces`, for back buffer `i`, in the
      source's evaluation order: `GetBuffer(i).unwrap()`, the two `i32`
      conversions, `unwrap_mut` on the context, and the wrap's `unwrap`. */
  function WrapBuffer(context: OptionalSkiaContext, i: nat, width: u32, height: u32, o: BufferOutcome): Outcome<Surface> {
    if !o.retrieved then Panic(BufferUnavailable)
    else if !FitsI32(width) || !FitsI32(height) then Panic(DimensionTooLarge)
    else if context.None? then Panic(ContextReleased)
    else if !o.wrapped then Panic(WrapFailed)
    else Ok(Surface(i, width, height))
  }

  /** The surfaces for back buffers `i` .. `BUFFER_COUNT - 1`, built in index
      order as `std::array::from_fn` does. */
  function WrapBuffersFrom(context: OptionalSkiaContext, width: u32, height: u32, buffers: BufferOutcomes, i: nat)
    : (r: Outcome<seq<Surface>>)
    requires i <= BUFFER_COUNT
    ensures !r.Err?
    ensures r.Ok? <==>
              (forall k :: i <= k < BUFFER_COUNT ==> BufferUsable(buffers[k])) &&
              (i < BUFFER_COUNT ==> context.Some? && FitsI32(width) && FitsI32(height))
    ensures r.Ok? ==> |r.value| == BUFFER_COUNT - i
    ensures r.Ok? ==> forall k :: 0 <= k < |r.value| ==> r.value[k] == Surface(i + k, width, height)
    ensures context.Some? && r.Panic? ==> !BreaksOwnership(r.reason)
    decreases BUFFER_COUNT - i
  {
    if i == BUFFER_COUNT then Ok([])
    else
      var surface :- WrapBuffer(context, i, width, height, buffers[i]);
      var rest :- WrapBuffersFrom(context, width, height, buffers, i + 1);
      Ok([surface] + rest)
  }

  /** `Backend::create_swap_chain_surfaces`: exactly `BUFFER_COUNT` surfaces,
      entry `i` wrapping back buffer `i` at (width, height). It never returns
      an error: every failure along the way is a panic. */
  function CreateSwapChainSurfaces(b: Backend, width: u32, height: u32, buffers: BufferOutcomes): (r: Outcome<SurfaceArray>)
    ensures !r.Err?
    ensures r.Ok? <==>
              b.context.Some? && FitsI32(width) && FitsI32(height) &&
              forall k :: 0 <= k < BUFFER_COUNT ==> BufferUsable(buffers[k])
    ensures r.Ok? ==> WrapsBackBuffers(r.value, width, height)
    ensures b.context.Some? && r.Panic? ==> !BreaksOwnership(r.reason)
  {
    var surfaces :- WrapBuffersFrom(b.context, width, height, buffers, 0);
    Ok(surfaces)
  }

  /** What the native calls of one swap-chain creation report: the
      `CreateSwapChainFor*` call, the `cast` to `IDXGISwapChain3`, and the
      back buffers. */
  datatype ChainCreation = ChainCreation(create: Status, cast: Status, buffers: BufferOutcomes)

  /** Everything a swap-chain creation at (width, height) needs from the
      native side: both calls succeed, the size fits in i32, and every back
      buffer is retrieved and wrapped. */
  predicate Creatable(n: ChainCreation, width: u32, height: u32) {
    n.create.Success? && n.cast.Success? && FitsI32(width) && FitsI32(height) &&
    forall k :: 0 <= k < BUFFER_COUNT ==> BufferUsable(n.buffers[k])
  }

  /** `create_swap_chain_for_hwnd` and `create_swap_chain_for_composition`,
      which differ only in their target: the queue comes from `unwrap_ref` on
      the context, the two native calls' errors propagate, and the result
      holds a full surface array at the requested size. */
  function CreateSwapChain(b: Backend, target: Target, width: u32, height: u32, n: ChainCreation): (r: Outcome<SwapChain>)
    ensures b.context.None? ==> r == Panic(ContextReleased)
    ensures r.Ok? <==> b.context.Some? && Creatable(n, width, height)
    ensures b.context.Some? && n.create.Failure? ==> r == Err(n.create.code)
    ensures b.context.Some? && n.create.Success? && n.cast.Failure? ==> r == Err(n.cast.code)
    ensures b.context.Some? && n.create.Success? && n.cast.Success? ==> !r.Err?
    ensures r.Ok? ==> r.value.native == NativeSwapChain(target, width, height)
    ensures r.Ok? ==> r.value.surfaces.Some? && WrapsBackBuffers(r.value.surfaces.value, width, height)
    ensures b.context.Some? && r.Panic? ==> !BreaksOwnership(r.reason)
  {
    var context :- Unwrap(b.context);
    if n.create.Failure? then Err(n.create.code)
    else if n.cast.Failure? then Err(n.cast.code)
    else
      var surfaces :- CreateSwapChainSurfaces(b, width, height, n.buffers);
      Ok(NewSwapChain(NativeSwapChain(target, width, height), surfaces))
  }

  /** `Backend::flush_and_submit_surface`: submits the surface's pending work
      through the live context; panics when the context is released. */
  function FlushAndSubmitSurface(b: Backend, surface: Surface): (r: Outcome<()>)
    ensures r.Ok? <==> b.context.Some?
    ensures !r.Ok? ==> r == Panic(ContextReleased)
  {
    var context :- Unwrap(b.context);
    Ok(())
  }

  /** `Backend::get_device_removed_reason`: the device's report, turned into a
      result; panics when the context is released. */
  function GetDeviceRemovedReason(b: Backend, reason: Status): (r: Outcome<()>)
    ensures b.context.None? ==> r == Panic(ContextReleased)
    ensures b.context.Some? ==> (r.Ok? <==> reason.Success?)
    ensures b.context.Some? && reason.Failure? ==> r == Err(reason.code)
  {
    var context :- Unwrap(b.context);
    if reason.Failure? then Err(reason.code) else Ok(())
  }

  /** `Backend::cleanup`: Skia's deferred cleanup on the live context; panics
      when the context is released. */
  function Cleanup(b: Backend): (r: Outcome<()>)
    ensures r.Ok? <==> b.context.Some?
    ensures !r.Ok? ==> r == Panic(ContextReleased)
  {
    var context :- Unwrap(b.context);
    Ok(())
  }
}

=== FILE: buffers.dfy ===
/** The data of a swap chain: `BUFFER_COUNT`, the surface array wrapped
    around the back buffers, and the `SwapChain` record itself. */
module Buffers {
  import opened Outcomes

  /** Two back buffers: double buffering. */
  const BUFFER_COUNT: nat := 2

  /** A Skia surface (with its render target) wrapped around back buffer
      `backBuffer`, sized `width` x `height`. */
  datatype Surface = Surface(backBuffer: nat, width: u32, height: u32)

  /** `SwapChainSurfaceArray`: exactly one surface per back buffer. */
  type SurfaceArray = s: seq<Surface> | |s| == BUFFER_COUNT
    witness [Surface(0, 0, 0), Surface(1, 0, 0)]

  /** Entry `i` wraps back buffer `i`, at the given size. */
  predicate WrapsBackBuffers(s: SurfaceArray, width: u32, height: u32) {
    forall i :: 0 <= i < BUFFER_COUNT ==> s[i] == Surface(i, width, height)
  }

  /** Wrapping the back buffers at a size determines the whole array. */
  lemma WrappedArrayIsDetermined(s: SurfaceArray, width: u32, height: u32)
    requires WrapsBackBuffers(s, width, height)
    ensures s == [Surface(0, width, height), Surface(1, width, height)]
  {
  }

  /** What the native calls report while wrapping one back buffer: whether
      `GetBuffer(i)` returns the resource and whether Skia wraps it. */
  datatype BufferOutcome = BufferOutcome(retrieved: bool, wrapped: bool)

  predicate BufferUsable(o: BufferOutcome) {
    o.retrieved && o.wrapped
  }

  /** One outcome per back buffer. */
  type BufferOutcomes = s: seq<BufferOutcome> | |s| == BUFFER_COUNT
    witness [BufferOutcome(true, true), BufferOutcome(true, true)]

  /** What the native swap chain presents to: a window, or a composition
      visual it is attached to later. */
  datatype Target = Hwnd(hwnd: int) | Composition

  /** The `IDXGISwapChain3` object: its target and the size of its buffers. */
  datatype NativeSwapChain = NativeSwapChain(target: Target, width: u32, height: u32)

  /** `SwapChain`: the native swap chain and the surface array, which is
      present in full or absent in full, never partly filled. */
  datatype SwapChain = SwapChain(native: NativeSwapChain, surfaces: Option<SurfaceArray>)

  /** `SwapChain::new`: a fresh swap chain holds its whole surface array. */
  function NewSwapChain(native: NativeSwapChain, surfaces: SurfaceArray): (r: SwapChain)
    ensures r.surfaces.Some? && r.surfaces.value == surfaces
    ensures r.native == native
  {
    SwapChain(native, Some(surfaces))
  }
}

=== FILE: lifecycle.dfy ===
/** The whole life of one window swap chain that owns its backend: created,
    then driven by any sequence of resize, draw, surface, present and
    context-recreation calls. The context is released only in the step that
    makes the state Resizing, and the state becomes Active again only after
    the context has been recreated, so no call ever panics on a released
    context, a missing surface array or a non-Active state. */
module Lifecycle {
  import opened Outcomes
  import opened Adapters
  import opened SkiaContexts
  import opened Buffers
  import opened Backends
  import opened SwapChains

  /** One call the owner makes, with the outcomes of the native calls it
      would make. */
  datatype Event =
    | ResizeEvent(width: u32, height: u32, native: ResizeNative)
    | DrawEvent(rebuild: Rebuild, index: u32, present: Status)
    | SurfaceEvent(rebuild: Rebuild, index: u32)
    | PresentEvent(index: u32, present: Status)
    | RecreateContextEvent(creation: ContextCreation)

  /** The owner's swap chain and backend, and the panic that ended the run,
      if one did. */
  datatype World = World(chain: HwndSwapChain, backend: Backend, panicked: Option<PanicReason>)

  /** The world after a call, with what the call left behind; a panic ends
      the run there. */
  function Settle<T>(chain: HwndSwapChain, backend: Backend, o: Outcome<T>): World {
    World(chain, backend, if o.Panic? then Some(o.reason) else None)
  }

  function Apply(w: World, e: Event): World {
    if w.panicked.Some? then w
    else
      match e
      case ResizeEvent(width, height, n) =>
        var r := ResizeHwnd(w.chain, w.backend, width, height, n);
        Settle(r.chain, r.backend, r.outcome)
      case DrawEvent(n, index, present) =>
        var r := DrawHwnd(w.chain, w.backend, n, index, present);
        Settle(r.chain, r.backend, r.outcome)
      case SurfaceEvent(n, index) =>
        var r := GetSurfaceHwnd(w.chain, w.backend, n, index);
        Settle(r.chain, r.backend, r.outcome)
      case PresentEvent(index, present) =>
        Settle(w.chain, w.backend, PresentHwnd(w.chain, w.backend, index, present))
      case RecreateContextEvent(c) =>
        var r := RecreateContextIfNeeded(w.backend, c);
        Settle(w.chain, r.backend, r.outcome)
  }

  function Run(w: World, events: seq<Event>): World
    decreases |events|
  {
    if events == [] then w else Run(Apply(w, events[0]), events[1..])
  }

  /** An Active state has a live context; until a panic, the single-owner
      invariant holds in full; and no ownership panic has happened. A panic
      inside an in-place resize may leave an Active swap chain without
      surfaces, but it ends the run. */
  predicate Sound(w: World) {
    (w.chain.state.Active? ==> w.backend.context.Some?) &&
    (w.panicked.None? ==> Consistent(w.chain, w.backend)) &&
    (w.panicked.Some? ==> !BreaksOwnership(w.panicked.value))
  }

  /** `Backend::new` followed by `create_raw_window_handle_swap_chain`. */
  function Start(factory: Status, c: ContextCreation, handle: RawWindowHandle, width: u32, height: u32, n: ChainCreation)
    : (r: Outcome<World>)
    ensures r.Ok? ==> Sound(r.value) && r.value.panicked.None? && r.value.chain.state.Active?
    ensures r.Ok? ==> r.value.backend.context.Some?
    ensures r.Ok? ==> r.value.chain.state.chain.native.width == width && r.value.chain.state.chain.native.height == height
    ensures r.Panic? ==> !BreaksOwnership(r.reason)
  {
    var backend :- NewBackend(factory, c);
    var chain :- CreateRawWindowHandleSwapChain(backend, handle, width, height, n);
    Ok(World(chain, backend, None))
  }

  /** One call keeps the world sound. */
  lemma ApplyKeepsSound(w: World, e: Event)
    requires Sound(w)
    ensures Sound(Apply(w, e))
  {
  }

  /** Any sequence of calls keeps the world sound. */
  lemma {:induction false} RunKeepsSound(w: World, events: seq<Event>)
    requires Sound(w)
    ensures Sound(Run(w, events))
    decreases |events|
  {
    if events != [] {
      ApplyKeepsSound(w, events[0]);
      RunKeepsSound(Apply(w, events[0]), events[1..]);
    }
  }

  /** For a swap chain that owns its backend, whatever the windowing system
      and the GPU do, no call ever panics on a released context (the
      `unwrap` in `unwrap_ref` / `unwrap_mut`), on missing surfaces, or on a
      state that is not Active, and an Active state always has a live
      context. */
  lemma OwnedSwapChainNeverBreaksOwnership(factory: Status, c: ContextCreation, handle: RawWindowHandle,
                                           width: u32, height: u32, n: ChainCreation, events: seq<Event>)
    requires Start(factory, c, handle, width, height, n).Ok?
    ensures var end := Run(Start(factory, c, handle, width, height, n).value, events);
            (end.chain.state.Active? ==> end.backend.context.Some?) &&
            (end.panicked.None? ==> Consistent(end.chain, end.backend)) &&
            (end.panicked.Some? ==> !BreaksOwnership(end.panicked.value))
  {
    RunKeepsSound(Start(factory, c, handle, width, height, n).value, events);
  }

  // A concrete run: one hardware adapter, every native call succeeding
  // except the one resize that reports a removed device.

  /** DXGI_ERROR_DEVICE_REMOVED (0x887A0005 read as an i32). */
  const DXGI_ERROR_DEVICE_REMOVED: HResult := -2005270523

  const GoodBuffers: BufferOutcomes := [BufferOutcome(true, true), BufferOutcome(true, true)]
  const OneGpu: ContextCreation := ContextCreation([Adapter(Success, 0, true)], Success, true)
  const GoodChain: ChainCreation := ChainCreation(Success, Success, GoodBuffers)

  /** Create at 800x600, draw, resize to 0x0 (nothing changes), resize in
      place to 1024x768, then a resize to 1024x768 that fails with a removed
      device (the context is released and the state is Resizing at
      1024x768), then a draw that rebuilds everything at 1024x768 and draws
      on back buffer 1 of the new swap chain. */
  lemma EndToEndScenario()
    ensures var s0 := Start(Success, OneGpu, Win32(7), 800, 600, GoodChain);
            s0.Ok? &&
            var w0 := s0.value;
            var d0 := DrawHwnd(w0.chain, w0.backend, Rebuild(OneGpu, GoodChain), 0, Success);
            d0.outcome == Ok(Surface(0, 800, 600)) &&
            var z := ResizeHwnd(d0.chain, d0.backend, 0, 0, ResizeNative(Success, GoodBuffers));
            z.chain == d0.chain && z.backend == d0.backend &&
            var r1 := ResizeHwnd(z.chain, z.backend, 1024, 768, ResizeNative(Success, GoodBuffers));
            r1.chain.state.Active? && r1.chain.state.chain.native.width == 1024 &&
            r1.chain.state.chain.surfaces == Some([Surface(0, 1024, 768), Surface(1, 1024, 768)]) &&
            var r2 := ResizeHwnd(r1.chain, r1.backend, 1024, 768, ResizeNative(Failure(DXGI_ERROR_DEVICE_REMOVED), GoodBuffers));
            r2.chain.state == Resizing(1024, 768) && r2.backend.context.None? &&
            var d1 := DrawHwnd(r2.chain, r2.backend, Rebuild(OneGpu, GoodChain), 1, Success);
            d1.outcome == Ok(Surface(1, 1024, 768)) && d1.chain.state.Active? &&
            d1.chain.state.chain.native == NativeSwapChain(Hwnd(7), 1024, 768) &&
            d1.backend.context == Some(SkiaContext(0))
  {
    var s0 := Start(Success, OneGpu, Win32(7), 800, 600, GoodChain);
    assert SelectAdapter(OneGpu.adapters) == Ok(0);
    assert s0.Ok?;
    var w0 := s0.value;
    WrappedArrayIsDetermined(w0.chain.state.chain.surfaces.value, 800, 600);
    var d0 := DrawHwnd(w0.chain, w0.backend, Rebuild(OneGpu, GoodChain), 0, Success);
    var z := ResizeHwnd(d0.chain, d0.backend, 0, 0, ResizeNative(Success, GoodBuffers));
    var r1 := ResizeHwnd(z.chain, z.backend, 1024, 768, ResizeNative(Success, GoodBuffers));
    WrappedArrayIsDetermined(r1.chain.state.chain.surfaces.value, 1024, 768);
    var r2 := ResizeHwnd(r1.chain, r1.backend, 1024, 768, ResizeNative(Failure(DXGI_ERROR_DEVICE_REMOVED), GoodBuffers));
    var d1 := DrawHwnd(r2.chain, r2.backend, Rebuild(OneGpu, GoodChain), 1, Success);
  }

  /** Why the invariant needs a single owner: if anyone else releases the
      shared context while the swap chain is Active, the next in-place
      resize reaches `cleanup` and panics on the released context. */
  lemma SharedReleaseBreaksOwnership(h: HwndSwapChain, b: Backend, width: u32, height: u32, n: ResizeNative)
    requires h.state.Active? && width != 0 && height != 0
    ensures !Consistent(h, ReleaseContext(b))
    ensures ResizeHwnd(h, ReleaseContext(b), width, height, n).outcome == Panic(ContextReleased)
  {
  }

  /** Why `get_device_removed_reason` is not one of the owner's events: once
      an in-place resize fails, the context stays released until the next
      draw or surface access rebuilds it, and the query panics on it. */
  lemma DeviceRemovedQueryPanicsWhileResizing(h: HwndSwapChain, b: Backend, width: u32, height: u32,
                                              n: ResizeNative, reason: Status)
    requires h.state.Active? && b.context.Some? && width != 0 && height != 0 && n.resizeBuffers.Failure?
    ensures var r := ResizeHwnd(h, b, width, height, n);
            r.chain.state == Resizing(width, height) &&
            GetDeviceRemovedReason(r.backend, reason) == Panic(ContextReleased)
  {
  }
}

=== FILE: outcomes.dfy ===
/** Shared vocabulary of the model: Rust's integer widths, the status of a
    foreign (COM/DXGI/D3D12/Skia) call, the reasons a Rust panic can occur in
    the core, and the three-way outcome of every modelled call: a value, a
    propagated `windows::core::Error`, or a panic. */
module Outcomes {

  /** Rust's `u32`: widths, heights and back-buffer indices. */
  type u32 = x: int | 0 <= x <= 0xFFFF_FFFF

  /** The largest `i32`; `u32::try_into::<i32>()` fails above it. */
  const I32_MAX: int := 0x7FFF_FFFF

  predicate FitsI32(x: u32) {
    x <= I32_MAX
  }

  /** The HRESULT carried by a `windows::core::Error`. */
  type HResult = int

  /** DXGI_ERROR_NOT_FOUND (0x887A0002 read as an i32): what
      `IDXGIFactory1::EnumAdapters1` reports past the last adapter. */
  const DXGI_ERROR_NOT_FOUND: HResult := -2005270526

  datatype Option<+T> = None | Some(value: T)

  /** The result of a foreign call that either succeeds or reports an HRESULT. */
  datatype Status = Success | Failure(code: HResult)

  /** Every place where the core can panic (or, for `unwrap_unchecked`, has
      undefined behaviour). */
  datatype PanicReason =
    | ContextReleased            // OptionalSkiaContext::unwrap_ref / unwrap_mut on None
    | SurfacesMissing            // `surfaces.as_mut().unwrap()` on None
    | NotActive                  // `get_active_mut().unwrap()` / `unwrap_unchecked()` on Resizing
    | BackBufferIndexOutOfRange  // indexing the two-entry surface array with the reported index
    | BufferUnavailable          // `GetBuffer(i).unwrap()`
    | DimensionTooLarge          // `width.try_into().unwrap()` into an i32
    | WrapFailed                 // `wrap_backend_render_target(..).unwrap()`
    | DirectContextFailed        // `DirectContext::new_d3d(..).unwrap()`
    | PresentFailed              // `Present(1, 0).ok().unwrap()` in SwapChain::present
    | NotWin32                   // `panic!("not win32")`

  /** The panics that come from the core's own bookkeeping rather than from a
      foreign call failing: a released context, a missing surface array, or a
      state that is not Active where one is required. */
  predicate BreaksOwnership(p: PanicReason) {
    p.ContextReleased? || p.SurfacesMissing? || p.NotActive?
  }

  /** A call of the core: it returns a value, propagates an error with `?`, or
      panics. Failure-compatible, so `:-` propagates both errors and panics. */
  datatype Outcome<+T> = Ok(value: T) | Err(code: HResult) | Panic(reason: PanicReason) {

    predicate IsFailure() {
      !Ok?
    }

    function PropagateFailure<U>(): Outcome<U>
      requires !Ok?
    {
      if Err? then Err(code) else Panic(reason)
    }

    function Extract(): T
      requires Ok?
    {
      value
    }
  }
}

=== FILE: skia_context.dfy ===
/** The GPU context (`SkiaContext`) and its optional wrapper
    (`OptionalSkiaContext`): adapter, device, command queue and Skia
    `DirectContext` are created together and released together. */
module SkiaContexts {
  import opened Outcomes
  import opened Adapters

  /** A live context; its device, queue and Skia context are opaque, so it is
      identified by the adapter it was created on. */
  datatype SkiaContext = SkiaContext(adapter: nat)

  /** What the native calls of one `SkiaContext::new` report: the enumerated
      adapters, the status of `CreateCommandQueue`, and whether
      `DirectContext::new_d3d` returns a context. */
  datatype ContextCreation = ContextCreation(adapters: seq<Adapter>, commandQueue: Status, directContextCreated: bool)

  /** `SkiaContext::new`: select an adapter (errors propagate), create the
      command queue (errors propagate), then wrap them in a Skia context (an
      `unwrap`, so a missing one panics). */
  function NewSkiaContext(c: ContextCreation): (r: Outcome<SkiaContext>)
    ensures r.Ok? <==> SelectAdapter(c.adapters).Ok? && c.commandQueue.Success? && c.directContextCreated
    ensures r.Ok? ==> SelectAdapter(c.adapters) == Ok(r.value.adapter)
    ensures r.Ok? ==> r.value.adapter < |c.adapters| && Usable(c.adapters[r.value.adapter])
    ensures SelectAdapter(c.adapters).Err? ==> r == Err(SelectAdapter(c.adapters).code)
    ensures SelectAdapter(c.adapters).Ok? && c.commandQueue.Failure? ==> r == Err(c.commandQueue.code)
    ensures r.Panic? ==> r.reason == DirectContextFailed
    ensures SelectAdapter(c.adapters).Ok? && c.commandQueue.Success? && !c.directContextCreated ==>
              r == Panic(DirectContextFailed)
  {
    var adapter :- SelectAdapter(c.adapters);
    if c.commandQueue.Failure? then Err(c.commandQueue.code)
    else if !c.directContextCreated then Panic(DirectContextFailed)
    else Ok(SkiaContext(adapter))
  }

  /** `OptionalSkiaContext`: `None` once released. */
  type OptionalSkiaContext = Option<SkiaContext>

  /** `OptionalSkiaContext::new`: a successful creation is always live. */
  function NewOptionalContext(c: ContextCreation): (r: Outcome<OptionalSkiaContext>)
    ensures r.Ok? <==> NewSkiaContext(c).Ok?
    ensures r.Ok? ==> r.value == Some(NewSkiaContext(c).value)
    ensures !r.Ok? ==> r == NewSkiaContext(c).PropagateFailure()
  {
    var context :- NewSkiaContext(c);
    Ok(Some(context))
  }

  /** `OptionalSkiaContext::release`: drops the context. */
  function Release(o: OptionalSkiaContext): (r: OptionalSkiaContext)
    ensures r.None?
  {
    None
  }

  /** The new context value and the returned result of one `recreate_if_needed`. */
  datatype Recreation = Recreation(context: OptionalSkiaContext, outcome: Outcome<bool>)

  /** `OptionalSkiaContext::recreate_if_needed`: creates a context exactly
      when there is none, reporting `true` for it; a live context is left
      alone with `false`; a failed creation leaves it released. */
  function RecreateIfNeeded(o: OptionalSkiaContext, c: ContextCreation): (r: Recreation)
    ensures o.Some? ==> r == Recreation(o, Ok(false))
    ensures o.None? ==> (r.outcome.Ok? <==> NewSkiaContext(c).Ok?)
    ensures r.outcome == Ok(true) <==> o.None? && r.context.Some?
    ensures r.outcome.Ok? ==> r.context.Some?
    ensures !r.outcome.Ok? ==> r.context == o && o.None?
    ensures o.None? && r.outcome.Ok? ==> r.context == Some(NewSkiaContext(c).value)
    ensures o.None? && !r.outcome.Ok? ==> r.outcome == NewSkiaContext(c).PropagateFailure()
  {
    if o.None? then
      match NewSkiaContext(c)
      case Ok(context) => Recreation(Some(context), Ok(true))
      case Err(e) => Recreation(o, Err(e))
      case Panic(p) => Recreation(o, Panic(p))
    else
      Recreation(o, Ok(false))
  }

  /** `unwrap_ref` / `unwrap_mut`: the live context, or a panic when released. */
  function Unwrap(o: OptionalSkiaContext): (r: Outcome<SkiaContext>)
    ensures r.Ok? <==> o.Some?
    ensures r.Ok? ==> r.value == o.value
    ensures !r.Ok? ==> r == Panic(ContextReleased)
  {
    match o
    case Some(context) => Ok(context)
    case None => Panic(ContextReleased)
  }

  /** After a release, the first recreation reports `true` and a second one
      straight after reports `false` and changes nothing. */
  lemma ReleaseThenRecreateOnce(o: OptionalSkiaContext, c1: ContextCreation, c2: ContextCreation)
    requires NewSkiaContext(c1).Ok?
    ensures RecreateIfNeeded(Release(o), c1).outcome == Ok(true)
    ensures var live := RecreateIfNeeded(Release(o), c1).context;
            RecreateIfNeeded(live, c2) == Recreation(live, Ok(false))
  {
  }
}

=== FILE: swap_chain.dfy ===
/** The swap chain and its state machine: in-place resize with a zero-size
    guard, drawing into the back buffer the presentation engine reports,
    the `Active` / `Resizing` state with deferred recreation, and the
    window-bound `HwndSwapChain` that owns it. */
module SwapChains {
  import opened Outcomes
  import opened SkiaContexts
  import opened Buffers
  import opened Backends

  /** A swap-chain operation's new swap chain and its returned result. */
  datatype ChainStep = ChainStep(chain: SwapChain, outcome: Outcome<()>)

  /** What the native calls of one in-place resize report: `ResizeBuffers`,
      and the back buffers wrapped afterwards. */
  datatype ResizeNative = ResizeNative(resizeBuffers: Status, buffers: BufferOutcomes)

  /** `SwapChain::resize`. A zero width or height does nothing. Otherwise it
      runs the context's deferred cleanup, drops the whole surface array,
      resizes the native buffers (an error propagates, leaving no surfaces),
      and wraps a full new array at the new size. A panic while wrapping
      leaves the native buffers resized and no surfaces at all. */
  function ResizeChain(sc: SwapChain, b: Backend, width: u32, height: u32, n: ResizeNative): (r: ChainStep)
    ensures width == 0 || height == 0 ==> r == ChainStep(sc, Ok(()))
    ensures width != 0 && height != 0 && b.context.None? ==> r.outcome == Panic(ContextReleased)
    ensures width != 0 && height != 0 && b.context.Some? ==> (r.outcome.Err? <==> n.resizeBuffers.Failure?)
    ensures width != 0 && height != 0 && b.context.Some? && n.resizeBuffers.Success? ==>
              (r.outcome.Ok? <==>
                 FitsI32(width) && FitsI32(height) && forall k :: 0 <= k < BUFFER_COUNT ==> BufferUsable(n.buffers[k]))
    ensures r.outcome.Err? ==> r.outcome.code == n.resizeBuffers.code
    ensures r.outcome.Err? ==> r.chain == sc.(surfaces := None)
    ensures width != 0 && height != 0 && r.outcome.Ok? ==>
              r.chain.native == sc.native.(width := width, height := height) &&
              r.chain.surfaces.Some? && WrapsBackBuffers(r.chain.surfaces.value, width, height)
    ensures r.outcome.Ok? ==> r.chain.surfaces.Some? || r.chain == sc
    ensures r.outcome.Panic? && b.context.None? ==> r.chain == sc
    ensures r.outcome.Panic? && b.context.Some? ==>
              r.chain == SwapChain(sc.native.(width := width, height := height), None)
    ensures b.context.Some? && r.outcome.Panic? ==> !BreaksOwnership(r.outcome.reason)
  {
    if width == 0 || height == 0 then ChainStep(sc, Ok(()))
    else
      var cleaned := Cleanup(b);
      if !cleaned.Ok? then ChainStep(sc, cleaned)
      else
        var dropped := sc.(surfaces := None);
        if n.resizeBuffers.Failure? then ChainStep(dropped, Err(n.resizeBuffers.code))
        else
          var surfaces := CreateSwapChainSurfaces(b, width, height, n.buffers);
          if surfaces.Ok? then
            ChainStep(SwapChain(sc.native.(width := width, height := height), Some(surfaces.value)), Ok(()))
          else
            ChainStep(SwapChain(sc.native.(width := width, height := height), None), surfaces.PropagateFailure())
  }

  /** `SwapChain::get_surface`: the surface of the back buffer the
      presentation engine reports as current (`GetCurrentBackBufferIndex`),
      which must exist and be below `BUFFER_COUNT`. */
  function GetSurface(sc: SwapChain, index: u32): (r: Outcome<Surface>)
    ensures r.Ok? <==> sc.surfaces.Some? && index < BUFFER_COUNT
    ensures r.Ok? ==> r.value == sc.surfaces.value[index]
    ensures sc.surfaces.None? ==> r == Panic(SurfacesMissing)
    ensures sc.surfaces.Some? && index >= BUFFER_COUNT ==> r == Panic(BackBufferIndexOutOfRange)
  {
    match sc.surfaces
    case None => Panic(SurfacesMissing)
    case Some(surfaces) =>
      if index < BUFFER_COUNT then Ok(surfaces[index]) else Panic(BackBufferIndexOutOfRange)
  }

  /** One drawn frame: the surface handed to the paint callback, and what
      `Present(1, 0)` (wait for one vertical blank) reported. */
  datatype Frame = Frame(surface: Surface, present: Status)

  /** `SwapChain::draw`: paint the current back buffer's surface, flush and
      submit it through the context, then present; the present status is
      returned, not unwrapped. */
  function DrawChain(sc: SwapChain, b: Backend, index: u32, present: Status): (r: Outcome<Frame>)
    ensures !r.Err?
    ensures r.Ok? <==> sc.surfaces.Some? && index < BUFFER_COUNT && b.context.Some?
    ensures r.Ok? ==> r.value == Frame(sc.surfaces.value[index], present)
    ensures sc.surfaces.Some? && b.context.Some? && r.Panic? ==> !BreaksOwnership(r.reason)
  {
    var surface :- GetSurface(sc, index);
    var flushed :- FlushAndSubmitSurface(b, surface);
    Ok(Frame(surface, present))
  }

  /** `SwapChain::present`: flush and submit the current surface and present;
      a failed present panics. */
  function PresentChain(sc: SwapChain, b: Backend, index: u32, present: Status): (r: Outcome<()>)
    ensures !r.Err?
    ensures r.Ok? <==> sc.surfaces.Some? && index < BUFFER_COUNT && b.context.Some? && present.Success?
    ensures sc.surfaces.Some? && index < BUFFER_COUNT && b.context.Some? && present.Failure? ==>
              r == Panic(PresentFailed)
    ensures sc.surfaces.Some? && b.context.Some? && r.Panic? ==> !BreaksOwnership(r.reason)
  {
    var surface :- GetSurface(sc, index);
    var flushed :- FlushAndSubmitSurface(b, surface);
    if present.Failure? then Panic(PresentFailed) else Ok(())
  }

  /** `SwapChainState`: a live swap chain, or the size a swap chain is to be
      rebuilt at. `Resizing` holds no swap chain at all. */
  datatype SwapChainState = Active(chain: SwapChain) | Resizing(newWidth: u32, newHeight: u32)

  /** `get_active` / `get_active_mut`: the swap chain exactly when Active. */
  function GetActive(s: SwapChainState): (r: Option<SwapChain>)
    ensures r.Some? <==> s.Active?
    ensures r.Some? ==> r.value == s.chain
  {
    match s
    case Active(chain) => Some(chain)
    case Resizing(_, _) => None
  }

  /** `needs_resize`: the pending size exactly when Resizing, so it is never
      present together with an active swap chain. */
  function NeedsResize(s: SwapChainState): (r: Option<(u32, u32)>)
    ensures r.Some? <==> s.Resizing?
    ensures r.Some? ==> r.value == (s.newWidth, s.newHeight)
    ensures r.Some? <==> GetActive(s).None?
  {
    match s
    case Resizing(w, h) => Some((w, h))
    case Active(_) => None
  }

  /** A state-machine operation's new state, new backend and returned result. */
  datatype StateStep = StateStep(state: SwapChainState, backend: Backend, outcome: Outcome<()>)

  /** `SwapChainState::resize`. From Active, an in-place resize that succeeds
      keeps the state Active; one that fails releases the context and becomes
      Resizing at the requested size. From Resizing, the pending size is
      overwritten (zero included) with no context call. The failure is
      absorbed: the result is never an error. A panic inside the in-place
      resize leaves the state Active on whatever that resize left behind. */
  function ResizeState(s: SwapChainState, b: Backend, width: u32, height: u32, n: ResizeNative): (r: StateStep)
    ensures !r.outcome.Err?
    ensures s.Resizing? ==> r == StateStep(Resizing(width, height), b, Ok(()))
    ensures s.Active? && ResizeChain(s.chain, b, width, height, n).outcome.Ok? ==>
              r == StateStep(Active(ResizeChain(s.chain, b, width, height, n).chain), b, Ok(()))
    ensures s.Active? && ResizeChain(s.chain, b, width, height, n).outcome.Err? ==>
              r == StateStep(Resizing(width, height), ReleaseContext(b), Ok(()))
    ensures r.backend != b ==> r.backend.context.None? && r.state == Resizing(width, height)
    ensures r.outcome.Panic? ==>
              s.Active? && r.state == Active(ResizeChain(s.chain, b, width, height, n).chain) && r.backend == b
  {
    match s
    case Active(sc) =>
      var inner := ResizeChain(sc, b, width, height, n);
      (match inner.outcome
       case Ok(_) => StateStep(Active(inner.chain), b, Ok(()))
       case Err(_) => StateStep(Resizing(width, height), ReleaseContext(b), Ok(()))
       case Panic(p) => StateStep(Active(inner.chain), b, Panic(p)))
    case Resizing(_, _) => StateStep(Resizing(width, height), b, Ok(()))
  }

  /** Two resizes in a row while Resizing leave only the second size. */
  lemma PendingResizeLastWriteWins(s: SwapChainState, b: Backend, w1: u32, h1: u32, n1: ResizeNative,
                                   w2: u32, h2: u32, n2: ResizeNative)
    requires s.Resizing?
    ensures var first := ResizeState(s, b, w1, h1, n1);
            ResizeState(first.state, first.backend, w2, h2, n2) == StateStep(Resizing(w2, h2), b, Ok(()))
  {
  }

  /** `HwndSwapChain`: a window handle and the swap-chain state bound to it. */
  datatype HwndSwapChain = HwndSwapChain(hwnd: int, state: SwapChainState)

  /** `HwndSwapChain::new`: starts Active with the given swap chain. */
  function NewHwndSwapChain(hwnd: int, sc: SwapChain): (r: HwndSwapChain)
    ensures r.state.Active? && r.state.chain == sc
    ensures r.hwnd == hwnd
  {
    HwndSwapChain(hwnd, Active(sc))
  }

  /** The single-owner invariant: an active swap chain has a live context
      and its full surface array. */
  predicate Consistent(h: HwndSwapChain, b: Backend) {
    h.state.Active? ==> b.context.Some? && h.state.chain.surfaces.Some?
  }

  /** An `HwndSwapChain` operation's new value, new backend and returned result. */
  datatype HwndStep<+T> = HwndStep(chain: HwndSwapChain, backend: Backend, outcome: Outcome<T>)

  /** What the native calls of one deferred rebuild report: the context
      recreation and the swap-chain creation. */
  datatype Rebuild = Rebuild(context: ContextCreation, chain: ChainCreation)

  /** Whether an access finds the swap chain Active, already or after the
      deferred rebuild: a released context must be creatable again, and a
      swap chain for the window at the pending size must be creatable. */
  predicate RebuildSucceeds(h: HwndSwapChain, b: Backend, n: Rebuild) {
    match h.state
    case Active(_) => true
    case Resizing(width, height) =>
      (b.context.Some? || NewSkiaContext(n.context).Ok?) && Creatable(n.chain, width, height)
  }

  /** `HwndSwapChain::recreate_if_needed`. Active: nothing. Resizing at
      (w, h): recreate the context if it was released, then create a swap
      chain for the window at (w, h) and become Active; an error in either
      step is returned and leaves the state Resizing. */
  function RecreateIfNeeded(h: HwndSwapChain, b: Backend, n: Rebuild): (r: HwndStep<()>)
    ensures h.state.Active? ==> r == HwndStep(h, b, Ok(()))
    ensures r.chain.hwnd == h.hwnd
    ensures r.outcome.Ok? <==> RebuildSucceeds(h, b, n)
    ensures r.outcome.Ok? ==> r.chain.state.Active?
    ensures r.outcome.Ok? && h.state.Resizing? ==> r.backend.context.Some?
    ensures r.outcome.Ok? && h.state.Resizing? ==>
              r.chain.state.chain.native == NativeSwapChain(Hwnd(h.hwnd), h.state.newWidth, h.state.newHeight) &&
              r.chain.state.chain.surfaces.Some? &&
              WrapsBackBuffers(r.chain.state.chain.surfaces.value, h.state.newWidth, h.state.newHeight)
    ensures !r.outcome.Ok? ==> r.chain == h && h.state.Resizing?
    ensures h.state.Resizing? && b.context.None? && !NewSkiaContext(n.context).Ok? ==>
              r.outcome == NewSkiaContext(n.context).PropagateFailure()
    ensures h.state.Resizing? && (b.context.Some? || NewSkiaContext(n.context).Ok?) && n.chain.create.Failure? ==>
              r.outcome == Err(n.chain.create.code)
    ensures h.state.Resizing? && (b.context.Some? || NewSkiaContext(n.context).Ok?) &&
            n.chain.create.Success? && n.chain.cast.Failure? ==>
              r.outcome == Err(n.chain.cast.code)
    ensures b.context.Some? ==> r.backend == b
    ensures b.context.None? && h.state.Resizing? && NewSkiaContext(n.context).Ok? ==>
              r.backend.context == Some(NewSkiaContext(n.context).value)
    ensures r.backend != b ==> b.context.None? && r.backend.context.Some?
    ensures r.outcome.Panic? ==> !BreaksOwnership(r.outcome.reason)
    ensures Consistent(h, b) ==> Consistent(r.chain, r.backend)
  {
    match h.state
    case Active(_) => HwndStep(h, b, Ok(()))
    case Resizing(width, height) =>
      var rc := RecreateContextIfNeeded(b, n.context);
      if !rc.outcome.Ok? then HwndStep(h, rc.backend, rc.outcome.PropagateFailure())
      else
        var created := CreateSwapChain(rc.backend, Hwnd(h.hwnd), width, height, n.chain);
        if created.Ok? then HwndStep(h.(state := Active(created.value)), rc.backend, Ok(()))
        else HwndStep(h, rc.backend, created.PropagateFailure())
  }

  /** Once a pending resize is realised, a second access rebuilds nothing:
      the rebuild happens at most once per pending resize. */
  lemma RebuildHappensOnce(h: HwndSwapChain, b: Backend, n1: Rebuild, n2: Rebuild)
    requires RecreateIfNeeded(h, b, n1).outcome.Ok?
    ensures var first := RecreateIfNeeded(h, b, n1);
            RecreateIfNeeded(first.chain, first.backend, n2) == HwndStep(first.chain, first.backend, Ok(()))
  {
  }

  /** `HwndSwapChain::resize`: the state machine's resize. From Active it
      becomes Resizing, with the context released, exactly when the in-place
      resize reaches `ResizeBuffers` and that fails; a successful in-place
      resize stays Active on the resized swap chain with the same backend. */
  function ResizeHwnd(h: HwndSwapChain, b: Backend, width: u32, height: u32, n: ResizeNative): (r: HwndStep<()>)
    ensures r.chain.hwnd == h.hwnd
    ensures !r.outcome.Err?
    ensures h.state.Resizing? ==> r == HwndStep(h.(state := Resizing(width, height)), b, Ok(()))
    ensures h.state.Active? && (width == 0 || height == 0) ==> r == HwndStep(h, b, Ok(()))
    ensures h.state.Active? ==>
              (r.chain.state.Resizing? <==> b.context.Some? && width != 0 && height != 0 && n.resizeBuffers.Failure?)
    ensures h.state.Active? && b.context.Some? && width != 0 && height != 0 && n.resizeBuffers.Failure? ==>
              r == HwndStep(h.(state := Resizing(width, height)), ReleaseContext(b), Ok(()))
    ensures h.state.Active? && b.context.Some? && width != 0 && height != 0 && n.resizeBuffers.Success? &&
            FitsI32(width) && FitsI32(height) && (forall k :: 0 <= k < BUFFER_COUNT ==> BufferUsable(n.buffers[k])) ==>
              r.outcome.Ok? && r.backend == b && r.chain.state.Active? &&
              r.chain.state.chain.native == h.state.chain.native.(width := width, height := height) &&
              r.chain.state.chain.surfaces.Some? &&
              WrapsBackBuffers(r.chain.state.chain.surfaces.value, width, height)
    ensures h.state.Active? && b.context.Some? && r.outcome.Panic? ==>
              r.backend == b && r.chain.state.Active? && r.chain.state.chain.surfaces.None? &&
              r.chain.state.chain.native == h.state.chain.native.(width := width, height := height)
    ensures r.backend != b ==> r.backend.context.None? && r.chain.state == Resizing(width, height)
    ensures Consistent(h, b) ==> (r.chain.state.Active? ==> r.backend.context.Some?)
    ensures Consistent(h, b) && !r.outcome.Panic? ==> Consistent(r.chain, r.backend)
    ensures Consistent(h, b) && r.outcome.Panic? ==> !BreaksOwnership(r.outcome.reason)
  {
    var step := ResizeState(h.state, b, width, height, n);
    HwndStep(h.(state := step.state), step.backend, step.outcome)
  }

  /** `HwndSwapChain::draw`: realise a pending resize (an error propagates),
      then draw on the now-active swap chain; a failed present becomes an
      error. The returned value is the surface the paint callback drew on. */
  function DrawHwnd(h: HwndSwapChain, b: Backend, n: Rebuild, index: u32, present: Status): (r: HwndStep<Surface>)
    ensures r.chain.hwnd == h.hwnd
    ensures Consistent(h, b) ==>
              (r.outcome.Ok? <==> RebuildSucceeds(h, b, n) && index < BUFFER_COUNT && present.Success?)
    ensures !RebuildSucceeds(h, b, n) ==>
              r.chain == h && r.outcome == RecreateIfNeeded(h, b, n).outcome.PropagateFailure()
    ensures !RebuildSucceeds(h, b, n) ==> r.backend == RecreateIfNeeded(h, b, n).backend
    ensures Consistent(h, b) && RebuildSucceeds(h, b, n) && index >= BUFFER_COUNT ==>
              r.outcome == Panic(BackBufferIndexOutOfRange)
    ensures Consistent(h, b) && RebuildSucceeds(h, b, n) && index < BUFFER_COUNT && present.Failure? ==>
              r.outcome == Err(present.code)
    ensures r.outcome.Ok? ==>
              r.chain.state.Active? && r.chain.state.chain.surfaces.Some? && index < BUFFER_COUNT &&
              r.outcome.value == r.chain.state.chain.surfaces.value[index]
    ensures h.state.Resizing? && r.outcome.Ok? ==>
              r.outcome.value == Surface(index, h.state.newWidth, h.state.newHeight)
    ensures h.state.Active? ==> r.chain == h && r.backend == b
    ensures Consistent(h, b) ==> Consistent(r.chain, r.backend)
    ensures Consistent(h, b) && r.outcome.Panic? ==> !BreaksOwnership(r.outcome.reason)
  {
    var rs := RecreateIfNeeded(h, b, n);
    if !rs.outcome.Ok? then HwndStep(rs.chain, rs.backend, rs.outcome.PropagateFailure())
    else
      match rs.chain.state
      case Resizing(_, _) => HwndStep(rs.chain, rs.backend, Panic(NotActive))
      case Active(sc) =>
        var drawn := DrawChain(sc, rs.backend, index, present);
        if !drawn.Ok? then HwndStep(rs.chain, rs.backend, drawn.PropagateFailure())
        else if drawn.value.present.Failure? then HwndStep(rs.chain, rs.backend, Err(drawn.value.present.code))
        else HwndStep(rs.chain, rs.backend, Ok(drawn.value.surface))
  }

  /** `HwndSwapChain::get_surface`: realise a pending resize (an error
      propagates), then the current back buffer's surface. */
  function GetSurfaceHwnd(h: HwndSwapChain, b: Backend, n: Rebuild, index: u32): (r: HwndStep<Surface>)
    ensures r.chain.hwnd == h.hwnd
    ensures Consistent(h, b) ==> (r.outcome.Ok? <==> RebuildSucceeds(h, b, n) && index < BUFFER_COUNT)
    ensures !RebuildSucceeds(h, b, n) ==>
              r.chain == h && r.outcome == RecreateIfNeeded(h, b, n).outcome.PropagateFailure()
    ensures !RebuildSucceeds(h, b, n) ==> r.backend == RecreateIfNeeded(h, b, n).backend
    ensures Consistent(h, b) && RebuildSucceeds(h, b, n) && index >= BUFFER_COUNT ==>
              r.outcome == Panic(BackBufferIndexOutOfRange)
    ensures !r.outcome.Err? || !RebuildSucceeds(h, b, n)
    ensures r.outcome.Ok? ==>
              r.chain.state.Active? && r.chain.state.chain.surfaces.Some? &&
              index < BUFFER_COUNT && r.outcome.value == r.chain.state.chain.surfaces.value[index]
    ensures h.state.Resizing? && r.outcome.Ok? ==>
              r.outcome.value == Surface(index, h.state.newWidth, h.state.newHeight)
    ensures h.state.Active? ==> r.chain == h && r.backend == b
    ensures Consistent(h, b) ==> Consistent(r.chain, r.backend)
    ensures Consistent(h, b) && r.outcome.Panic? ==> !BreaksOwnership(r.outcome.reason)
  {
    var rs := RecreateIfNeeded(h, b, n);
    if !rs.outcome.Ok? then HwndStep(rs.chain, rs.backend, rs.outcome.PropagateFailure())
    else
      match rs.chain.state
      case Resizing(_, _) => HwndStep(rs.chain, rs.backend, Panic(NotActive))
      case Active(sc) => HwndStep(rs.chain, rs.backend, GetSurface(sc, index))
  }

  /** `HwndSwapChain::present`: presents an active swap chain, and does
      nothing at all while Resizing. */
  function PresentHwnd(h: HwndSwapChain, b: Backend, index: u32, present: Status): (r: Outcome<()>)
    ensures h.state.Resizing? ==> r == Ok(())
    ensures !r.Err?
    ensures h.state.Active? ==> r == PresentChain(h.state.chain, b, index, present)
    ensures h.state.Active? && h.state.chain.surfaces.Some? && index < BUFFER_COUNT && b.context.Some? && present.Failure? ==>
              r == Panic(PresentFailed)
    ensures h.state.Active? ==>
              (r.Ok? <==> h.state.chain.surfaces.Some? && index < BUFFER_COUNT && b.context.Some? && present.Success?)
    ensures Consistent(h, b) && r.Panic? ==> !BreaksOwnership(r.reason)
  {
    match h.state
    case Active(sc) => PresentChain(sc, b, index, present)
    case Resizing(_, _) => Ok(())
  }

  /** `Backend::create_hwnd_swap_chain`: a swap chain for the window, Active
      from the start. */
  function CreateHwndSwapChain(b: Backend, hwnd: int, width: u32, height: u32, n: ChainCreation): (r: Outcome<HwndSwapChain>)
    ensures r.Ok? <==> CreateSwapChain(b, Hwnd(hwnd), width, height, n).Ok?
    ensures r.Ok? ==>
              r.value.hwnd == hwnd && r.value.state.Active? &&
              r.value.state.chain.native == NativeSwapChain(Hwnd(hwnd), width, height) &&
              r.value.state.chain.surfaces.Some? &&
              WrapsBackBuffers(r.value.state.chain.surfaces.value, width, height)
    ensures r.Ok? ==> Consistent(r.value, b)
    ensures !r.Ok? ==> r == CreateSwapChain(b, Hwnd(hwnd), width, height, n).PropagateFailure()
    ensures b.context.Some? && r.Panic? ==> !BreaksOwnership(r.reason)
  {
    var sc :- CreateSwapChain(b, Hwnd(hwnd), width, height, n);
    Ok(NewHwndSwapChain(hwnd, sc))
  }

  /** The window handle a windowing library hands over: only Win32 handles
      are supported. */
  datatype RawWindowHandle = Win32(hwnd: int) | OtherPlatform

  /** `Backend::create_raw_window_handle_swap_chain`: any handle but a Win32
      one panics; a Win32 handle gets an Active swap chain for its window. */
  function CreateRawWindowHandleSwapChain(b: Backend, handle: RawWindowHandle, width: u32, height: u32, n: ChainCreation)
    : (r: Outcome<HwndSwapChain>)
    ensures handle.OtherPlatform? ==> r == Panic(NotWin32)
    ensures handle.Win32? ==> (r.Ok? <==> CreateSwapChain(b, Hwnd(handle.hwnd), width, height, n).Ok?)
    ensures r.Ok? ==> handle.Win32? && r.value.hwnd == handle.hwnd && r.value.state.Active?
    ensures r.Ok? ==>
              r.value.state.chain.native == NativeSwapChain(Hwnd(handle.hwnd), width, height) &&
              r.value.state.chain.surfaces.Some? &&
              WrapsBackBuffers(r.value.state.chain.surfaces.value, width, height)
    ensures handle.Win32? && !r.Ok? ==> r == CreateSwapChain(b, Hwnd(handle.hwnd), width, height, n).PropagateFailure()
  {
    match handle
    case Win32(hwnd) => CreateHwndSwapChain(b, hwnd, width, height, n)
    case OtherPlatform => Panic(NotWin32)
  }
}
